=== FILE: README.md ===
# Climbing-route editor and path service: a Dafny model

The editor is a browser tool for marking climbing holds on a 3D wall model. It sends the holds to a
path-finding service and draws the per-limb routes that come back. This project models the discrete
logic of both sides as pure functions over immutable datatypes:

- **Hold store** (`HoldStore`). This is the editor component's state: holds, connections, animated
  paths, the id counter, the selection, the open notice and the colour-picker flag. It covers the
  handlers for adding a hold on a pointer event, selecting, removing (which cascades to connections),
  clearing and recolouring. It also has the filter that draws a connection only when both endpoints
  exist.
- **Transport** (`Transport`). These are the play/pause and step buttons over the two shared flags.
- **Solver gateway** (`SolverGateway`). This is the export handler. It has the empty-store guard and
  the branch on the settled `fetch`. It maps the reply's limb → id-list object onto consecutive-pair
  connections coloured by the limb table, and onto animated paths that skip unknown ids. It comes in
  two forms: the handler as written, and a corrected one (see Findings).
- **Session** (`Session`). Every user action is a transition. The model proves invariants that hold
  after any sequence of actions.
- **Request validation** (`Json`, `HoldParsing`). This is `parse_holds` over decoded JSON values,
  including Python's `int(...)` conversion and truthiness.
- **Start selection** (`StartSelection`). `find_top_hold` is the first highest hold.
  `assign_start_positions` uses a stable sort by `(y, x)`, modelled as an insertion sort over
  (hold, input index) entries.
- **Path assembly** (`Climbing`). This covers the `position_to_id` lookup, the seeding of one id per
  limb, the goal-hold lookup, and the padding loop. The loop is a method with invariants, proved equal
  to a closed form.
- **Endpoint** (`Endpoint`). This is `receive_json`: the pipeline and its status decision
  (400 / 200 / 204 / 500).
- **Wire** (`Wire`). This is the editor's request body. The model proves that the service reads it
  back as the editor's holds, and what status an export of n holds receives.

Coordinates are `real` triples (`Space.Point`). They are only copied and compared, never combined.
The network call and the backtracking search are inputs. The reply to an export is a
`SolverGateway.Response` value. The search result is a `Climbing.SearchOutcome` value: either the search
returned, with its success flag, the ids it appended per limb and its move counter, or it raised
(for example a `RecursionError`, since `backtrack` recurses once per move).

## Model

| member | source | states |
|---|---|---|
| Seqs.Keep | frontend/src/App.tsx:269-275 | filtering keeps exactly the elements that pass the test, never lengthens the list, and keeps the list whole when all pass |
| Seqs.KeepAppend | frontend/src/App.tsx:269-275 | filtering distributes over concatenation, so the survivors keep their relative order |
| Limbs.FromName | climbing2.py:192 | a `paths` key reads back as a limb exactly when it is one of the four limb names |
| Limbs.ColorOfKey | frontend/src/App.tsx:68-73 | the four limb names get their colours (red, blue, green, yellow), and any other key the solver sends gets no colour (see Left out for keys inherited from `Object.prototype`) |
| Limbs.Tabulate | climbing2.py:201 | a per-limb record built from a function holds that function's value for every limb |
| Transport.PlayPause | frontend/src/App.tsx:199-202 | play/pause flips playing, cancels stepping, and leaves the modes exclusive: paused if it was playing, playing otherwise |
| Transport.StepForward | frontend/src/App.tsx:204-207 | step stops playing and turns stepping on |
| Transport.PressesLeaveOneMode | frontend/src/App.tsx:199-207 | after any non-empty run of button presses the two modes are exclusive, and the last button pressed decides whether the mode is stepping |
| Transport.PlayPauseTwice | frontend/src/App.tsx:199-202 | pressing play/pause twice from a non-stepping state restores the flags |
| HoldStore.Find | frontend/src/App.tsx:329 | `holds.find` returns the first hold carrying the id, and nothing exactly when no hold has it |
| HoldStore.AddHold | frontend/src/App.tsx:258-265 | a pointer event with a point appends one hold (id = counter, colour `#000000`, type Jug) and advances the counter; existing holds are unchanged; the new id exceeds every existing id; an event without a point changes nothing |
| HoldStore.KeepIncreasing | frontend/src/App.tsx:269 | removing holds keeps the surviving ids strictly increasing |
| HoldStore.RemoveHold | frontend/src/App.tsx:267-279 | with a selection, every hold with that id and every connection touching it go, and the survivors of both lists stay in their original order with their duplicates, as `filter` keeps them; the selection clears and "Hold removed!" is shown; without a selection nothing changes |
| HoldStore.SelectThenRemove | frontend/src/App.tsx:267-279 | clicking a hold and then pressing remove deletes exactly the holds with that id and the connections touching it, whatever was selected before, leaves nothing selected and keeps the counter and transport |
| HoldStore.ClearHolds | frontend/src/App.tsx:281-287 | holds, connections and animated paths become empty and the counter returns to 1 whatever the prior state; selection, transport and picker stay |
| HoldStore.ChangeHoldColor | frontend/src/App.tsx:346-354 | with a selection only the colour of the holds carrying the selected id changes (ids, positions, types, order and length kept) and the picker closes; without a selection nothing changes |
| HoldStore.Recolor | frontend/src/App.tsx:348-350 | the recoloured list has the same length, and each hold is recoloured exactly when its id matches |
| HoldStore.Visible | frontend/src/App.tsx:527-535 | every drawn segment belongs to a connection whose two endpoint ids match holds and runs between their positions; every such connection is drawn |
| HoldStore.VisibleIsFilter | frontend/src/App.tsx:527-535 | the drawn segments follow the connection list in order and with duplicates: their connections are exactly those the render filter keeps |
| HoldStore.RemovedHoldIsNotDrawn | frontend/src/App.tsx:267-279 | after a removal no drawn segment belongs to a connection touching the removed id |
| SolverGateway.Pairs | frontend/src/App.tsx:325-327 | an id list of length k ≥ 1 yields exactly k-1 connections `(ids[i], ids[i+1])` with the limb's colour, in order; an empty list yields none |
| SolverGateway.Resolve | frontend/src/App.tsx:328-331 | the animated path is never longer than the id list; every point is a hold's position; it has full length exactly when every id matches a hold, and then it lists those holds' positions in order |
| SolverGateway.ResolveSkipsUnknown | frontend/src/App.tsx:328-331 | for every id list, the animated path is what remains after dropping the ids that match no hold, in order, each replaced by the position of the first hold with that id |
| SolverGateway.ConnectionsAppend | frontend/src/App.tsx:321-327 | the connections of two consecutive groups of limbs are the connections of the first followed by those of the second |
| SolverGateway.ConnectionsOfLimb | frontend/src/App.tsx:317-327 | limb entry k contributes one contiguous block of k's consecutive pairs, coloured by its limb colour, right after the blocks of the entries before it |
| SolverGateway.AnimatedPaths | frontend/src/App.tsx:319-333 | one animated path per reply entry, in order, with the entry's limb and colour and its resolved points, never longer than its id list |
| SolverGateway.ExportAsWritten | frontend/src/App.tsx:294-344 | the handler as written: an empty store only shows "No holds to export!"; holds, counter, selection, transport and picker never change |
| SolverGateway.NoPathsNoticeUnreachable | frontend/src/App.tsx:308-314 | as written, no reply ever produces the "No paths found by the algorithm." notice |
| SolverGateway.NoContentReportedAsFailure | frontend/src/App.tsx:308-316 | as written, the service's 204 "no paths" reply is reported as "Export failed!" |
| SolverGateway.Delivered | frontend/src/App.tsx:308-317 | a reply delivers id lists exactly when it is an ok reply whose status does not force an empty body (204, 205) and whose body parses with a truthy `paths`, and then it delivers those lists |
| SolverGateway.Export | frontend/src/App.tsx:294-344 | an empty store makes no request and only sets the notice; a delivered reply replaces the connections with the reply's consecutive pairs and the animated paths with its resolved paths and changes nothing else; a 204, any other failure, an unparseable body or a body without `paths` changes only the notice |
| SolverGateway.ExportAgreesAwayFromNoContent | frontend/src/App.tsx:308-314 | the corrected and as-written handlers agree on every reply except a 204, and even there they differ only in the notice |
| SolverGateway.ExampleConnections | frontend/src/App.tsx:321-327 | the reply `left_hand: [1, 2, 3]` yields the red connections 1→2 and 2→3 |
| SolverGateway.ExampleAnimatedPaths | frontend/src/App.tsx:328-332 | against holds 1, 2, 3 at (0,0,0), (1,0,0), (2,0,0) that reply yields one red path through the three points in order |
| SolverGateway.ThreeHoldExample | frontend/src/App.tsx:317-336 | exporting those three holds and receiving that reply installs exactly those connections and that path and shows "Paths received successfully!" |
| Session.ApplyKeepsGood | frontend/src/App.tsx:258-354 | every user action keeps ids positive, strictly increasing and below the counter, and keeps the transport modes exclusive |
| Session.RunKeepsGood | frontend/src/App.tsx:258-354 | any sequence of user actions from a good state leads to a good state |
| Session.ExportAsWrittenKeepsGood | frontend/src/App.tsx:294-344 | the export handler as written also keeps the session good, so the invariant does not depend on the corrected 204 branch |
| Session.InitialIsGood | frontend/src/App.tsx:243-253 | the initial state is good |
| Session.NewHoldIdIsLargest | frontend/src/App.tsx:258-265 | after any history from the initial state, a newly added hold's id exceeds every id in the store |
| Json.Truncate | climbing2.py:135 | `int()` of a float truncates toward zero: the result is within one of the value, on the side of zero |
| Json.TruncateWhole | climbing2.py:135 | `int()` of a whole number is that number |
| Json.ParseDecimal | climbing2.py:135 | `int()` of a string succeeds exactly on a run of one or more digits, optionally after a single sign; the value is the digits' decimal value, negated after `-` |
| Json.ParseShow | climbing2.py:135 | `int()` reads the decimal form of every integer back as that integer |
| Json.IntOf | climbing2.py:135 | `int()` truncates numbers, maps booleans to 1 and 0, reads strings as signed decimals (raising on any other string), and raises on null, lists and objects |
| Json.NumberOf | climbing2.py:159 | only numbers and booleans compare as numbers: a number as itself, `True` as 1 and `False` as 0 |
| HoldParsing.ParseHold | climbing2.py:134-142 | a hold is accepted exactly when it is an object with an int-convertible `id` and a three-element `position` list; the record keeps that id, that list and the `type` (default "unknown") and drops the colour; a convertible id with a bad position reports that id |
| HoldParsing.ParseList | climbing2.py:133-144 | the list succeeds exactly when every hold does, with one record per hold in order; otherwise it reports the first failing hold's error |
| HoldParsing.ParseHolds | climbing2.py:127-150 | a non-object raises; a missing or non-list `holds` raises; otherwise it succeeds exactly when every hold is acceptable, and then record k is the validation of hold k |
| HoldParsing.Coordinates | climbing2.py:159 | a position becomes a point exactly when its three entries are numbers, keeping their values |
| StartSelection.TopIndex | climbing2.py:159 | the chosen hold's y is at least every hold's y, and every earlier hold is strictly lower, as Python's `max` keeps the first maximum |
| StartSelection.TopIndexUnique | climbing2.py:159 | those two properties single out the chosen index |
| StartSelection.FindTopHold | climbing2.py:152-160 | raises on an empty list; otherwise returns the first hold that is at least as high as every hold, as `max` keeps the first maximum |
| StartSelection.BeforeTransitive | climbing2.py:169 | the stable `(y, x)` order is transitive |
| StartSelection.Insert | climbing2.py:169 | inserting into a sorted list keeps it sorted and adds exactly the one entry |
| StartSelection.SortEntries | climbing2.py:169 | the sort returns a permutation of its input in stable `(y, x)` order |
| StartSelection.StableSort | climbing2.py:169 | `sorted(holds, key=(y, x))` is a permutation of the holds, non-decreasing in `(y, x)`, with equal keys in input order |
| StartSelection.AssignStartPositions | climbing2.py:162-185 | raises exactly with fewer than four holds; otherwise the feet get the 1st and 2nd positions of the stable sort and the hands the 3rd and 4th; each is an input position; they are non-decreasing in `(y, x)`; the left foot is as low as any hold |
| StartSelection.LeastFirst | climbing2.py:169-175 | the first entry of the stable sort is at least as low in `(y, x)` as every hold |
| Climbing.PositionToId | climbing2.py:195 | the lookup fails exactly when no hold is at the position; otherwise it gives the id of the last hold there |
| Climbing.SeedPaths | climbing2.py:200-205 | each limb's path is seeded with exactly one id, the one at its start position |
| Climbing.PadPath | climbing2.py:286-289 | the padding loop reaches the move count, leaves the path unchanged as a prefix and appends only copies of the last id |
| Climbing.Padded | climbing2.py:286-289 | closed form of the padding: length max(path, move count), path as prefix, then copies of the last id |
| Climbing.PaddedShape | climbing2.py:286-289 | any list of that shape is the closed form |
| Climbing.LimbPath | climbing2.py:200-289 | a final limb path starts with the seed id, continues with the search's additions, reaches the move count and ends with copies of its last id |
| Climbing.PaddingIdle | climbing2.py:259-289 | when the search has appended at least as many ids to a limb as its move counter, which its bookkeeping always ensures, the padding loop adds nothing |
| Climbing.ClimbingAlgorithm | climbing2.py:187-291 | raises with fewer than four holds, with an unknown goal id, or when the search itself raises, and otherwise succeeds; on success it passes the search's verdict through, its starts are those of `assign_start_positions`, and every limb path is seed, additions and padding |
| Climbing.StartsAreKnown | climbing2.py:195-204 | every start position is some hold's position, so the seeding lookup never raises |
| Climbing.PathsStartAtStartHolds | climbing2.py:195-205 | with four or more holds, a known goal id and a search that returns, the algorithm succeeds, and every limb path begins with the id of a hold at that limb's start position |
| Endpoint.Respond | climbing2.py:14-32 | missing JSON gives 400; success gives 200 with exactly the paths; failure gives 204 with an empty body; anything raised gives 500 with the error |
| Endpoint.ToWall | climbing2.py:159-169 | the holds become wall holds exactly when every coordinate is numeric, keeping id, point and type in order |
| Endpoint.TopHoldIsKnown | climbing2.py:279-281 | the goal hold's id is always found among the holds |
| Endpoint.Handle | climbing2.py:14-32 | the pipeline: no JSON exactly for absent or falsy data; a parse error is raised as such; holds with numeric coordinates reach a result exactly when there are at least four and the search returns; an exception from the search is caught as raised |
| Endpoint.ReceiveJson | climbing2.py:13-32 | 400 exactly for absent or falsy JSON; 500 for a parse error; for valid numeric holds, 500 under four, 500 when the search raises, and otherwise the search's 200 or 204 from four on |
| Wire.ParsePayload | climbing2.py:127-150 | the editor's request body parses back as its holds in order, with id, coordinates and type name, and without colour |
| Wire.PayloadReachesSearch | frontend/src/App.tsx:301-305 | the request body is truthy JSON and reaches the search as the editor's own ids and positions |
| Wire.ExportStatus | climbing2.py:18-32 | an export of one to three holds is answered 500; four or more get 500 when the search raises and otherwise 200 or 204 by the search's verdict |
| Wire.AnswerCarriesAlgorithmPaths | climbing2.py:19-26 | with four or more holds and a successful search, the answer is 200 carrying the paths `climbing_algorithm` built |
| Wire.PathsStartAtEditorHolds | climbing2.py:195-205 | every path in a 200 answer is non-empty and starts at the id of one of the editor's holds |

## Findings

| source | as written | input that shows it | evidently intended | confidence | as-written member | corrected member |
|---|---|---|---|---|---|---|
| frontend/src/App.tsx:308-314 | the `status === 204` test is nested inside `if (!response.ok)`; `fetch` sets `ok` for every status from 200 to 299, so a 204 skips it and `response.json()` fails on the empty body | the service's "no paths found" reply (climbing2.py:29): status 204, empty body | show "No paths found by the algorithm." and leave connections and animated paths unchanged | high; not executed | SolverGateway.ExportAsWritten (shown by SolverGateway.NoPathsNoticeUnreachable and SolverGateway.NoContentReportedAsFailure) | SolverGateway.Export (used by Session.Apply) |

## Left out

- Rendering: legend, canvas, spheres, line geometry (`renderLineBetweenPoints`), snackbar timing and the colour dialog are view code. The only piece of it modelled is the filter that decides which connections are drawn.
- Marker playback (`AnimatedSphere`'s per-frame callback, App.tsx:148-175) is left out. It is floating-point interpolation driven by the host render loop. The model keeps only the order in which that callback reads the flags (`Transport.ModeOf`).
- `fetch`, JSON transport and the ordering of concurrent exports are left out. The settled response is an input. In the source the handler resolves ids against the `holds` captured when the button was clicked (App.tsx:295 and 329), and only the two setters at App.tsx:334-335 act when the response arrives. The atomic `SolverGateway.Export` merges these two moments into one, so edits made while a request is in flight are not modelled.
- `console.error` logging, `print` calls and the text of Python exception messages are left out. Errors are datatypes that name their cause.
- GLTF model upload and loading, zoom reset and the scale slider are I/O or view state with no behaviour of the store.
- The geometry of the service (`node_distance`, `center_of_mass`, `within_reach`, `isHoldValidFunction`) is floating-point square roots and weighted averages. The `backtrack` search body depends on it and on mutable closure state. Flask/CORS setup, content-type handling of `request.get_json()` and `app.run` are framework code. The search's result is an input.
- The hold-type gates of `isHoldValidFunction` (climbing2.py:76-82) compare with the lower-case `"nub"` and `"crimp"`, while the editor sends `"Nub"`, `"Crimp"` and `"Jug"`. As the two files stand, those gates never fire for editor requests. The gates are part of the search, so they are not modelled.
- Endpoint.ToWall: the model is stricter than the source. Every coordinate must be a number or boolean, or the request ends in 500. Python raises only when it actually compares or combines an incomparable value, and some requests never reach such a step. For example, `backtrack` returns True at climbing2.py:217-223 before any arithmetic when both hands start on the goal position. With holds id 1 at `[0,5,0]`, id 2 at `[0,5,0]`, id 3 at `[0,0,0]`, id 4 at `[1,0,0]` and id 5 at `[3,5,"a"]`, Python never looks at the `"a"` and answers 200, while the model answers 500.
- Json.ParseDecimal: Python's `int()` on strings also accepts surrounding whitespace, digit-group underscores and non-ASCII digits; the model accepts only an optional sign and ASCII digits. NaN and infinite numbers are not represented, so `int()` raising `OverflowError` is not modelled.
- Json.IntOf: a JSON number is a `real`, so the difference between Python's `int` and `float` decoding is not kept.
- Climbing.ClimbingAlgorithm: the search's additions and move counter are taken as given, not recomputed from the geometry.
- Climbing.SearchOutcome: the move counter is taken as given and may be larger than what the search appended. In the source it never is: every move appends to all four paths and undoing a move removes from one path only (climbing2.py:259-275), so the padding loop at climbing2.py:286-289 never runs (`Climbing.PaddingIdle`). The same bookkeeping means the four paths can end with different lengths; the model does not compute those lengths.
- Limbs.ColorOfKey: `limbColors` is an ordinary object literal, so at App.tsx:322 a key naming a member inherited from `Object.prototype` (`constructor`, `toString`, `__proto__`, and so on) yields that member, not `undefined`. The model gives such keys no colour.
- JavaScript ids are floating-point numbers; the model's ids and counter are unbounded integers, which agree with them below 2^53.
- Malformed `paths` entries whose id list is not an array are left out. The model's reply body carries integer id lists, or a body that fails to parse.

=== FILE: climbing.dfy ===
/** climbing_algorithm (climbing2.py) around its search: the start positions, the seeding of
    one path per limb, the goal-hold lookup and the final padding of the paths. The
    backtracking search itself is not modelled; what it leaves behind is an input. */
module Climbing {
  import opened Wrappers
  import opened Space
  import opened Limbs
  import opened StartSelection

  /** `position_to_id[tuple(p)]`: the dictionary is built in list order, so the last hold at
      a position wins. None where the lookup raises KeyError. */
  function PositionToId(holds: seq<WallHold>, p: Point): (r: Option<int>)
    ensures r.None? <==> forall k :: 0 <= k < |holds| ==> holds[k].pos != p
    ensures r.Some? ==> exists k :: 0 <= k < |holds| && holds[k].pos == p && holds[k].id == r.value
                                    && forall j :: k < j < |holds| ==> holds[j].pos != p
    decreases |holds|
  {
    if |holds| == 0 then None
    else if holds[|holds| - 1].pos == p then Some(holds[|holds| - 1].id)
    else
      var front := holds[..|holds| - 1];
      var r := PositionToId(front, p);
      assert forall k :: 0 <= k < |front| ==> front[k] == holds[k];
      r
  }

  /** Each limb's path starts as the single id found at its start position. */
  function SeedPaths(holds: seq<WallHold>, starts: PerLimb<Point>): (r: Option<PerLimb<seq<int>>>)
    ensures r.Some? <==> forall l: Limb :: PositionToId(holds, starts.Get(l)).Some?
    ensures r.Some? ==> forall l: Limb :: r.value.Get(l) == [PositionToId(holds, starts.Get(l)).value]
  {
    if forall l: Limb :: PositionToId(holds, starts.Get(l)).Some? then
      Some(Tabulate((l: Limb) => [PositionToId(holds, starts.Get(l)).value]))
    else None
  }

  /** The padding loop for one limb, as written: append copies of the last id while the path
      is shorter than the move count. An empty path that needs padding would raise, which
      the seeding rules out. */
  method PadPath(path: seq<int>, moveCount: int) returns (r: seq<int>)
    requires |path| > 0 || moveCount <= 0
    ensures |r| == if moveCount > |path| then moveCount else |path|
    ensures r[..|path|] == path
    ensures forall i :: |path| <= i < |r| ==> r[i] == path[|path| - 1]
    ensures r == Padded(path, moveCount)
  {
    r := path;
    while |r| < moveCount
      invariant |path| <= |r| && (|r| > |path| ==> |r| <= moveCount)
      invariant r[..|path|] == path
      invariant forall i :: |path| <= i < |r| ==> r[i] == path[|path| - 1]
      decreases moveCount - |r|
    {
      r := r + [r[|r| - 1]];
    }
    PaddedShape(path, moveCount, r);
  }

  function Repeat(x: int, n: nat): (r: seq<int>)
    ensures |r| == n && forall i :: 0 <= i < n ==> r[i] == x
  {
    if n == 0 then [] else [x] + Repeat(x, n - 1)
  }

  /** The padded path in closed form: the path followed by enough copies of its last id. */
  function Padded(path: seq<int>, moveCount: int): (r: seq<int>)
    requires |path| > 0 || moveCount <= 0
    ensures |r| == if moveCount > |path| then moveCount else |path|
    ensures r[..|path|] == path
    ensures forall i :: |path| <= i < |r| ==> r[i] == path[|path| - 1]
  {
    if moveCount <= |path| then path else path + Repeat(path[|path| - 1], moveCount - |path|)
  }

  /** Any sequence of the padded shape is the closed form. */
  lemma PaddedShape(path: seq<int>, moveCount: int, r: seq<int>)
    requires |path| > 0 || moveCount <= 0
    requires |r| == if moveCount > |path| then moveCount else |path|
    requires r[..|path|] == path
    requires forall i :: |path| <= i < |r| ==> r[i] == path[|path| - 1]
    ensures r == Padded(path, moveCount)
  {
    if moveCount > |path| {
      var q := Padded(path, moveCount);
      assert |q| == |r|;
      forall i | 0 <= i < |r| ensures r[i] == q[i] {
        if i < |path| {
          assert r[i] == r[..|path|][i];
        }
      }
    } else {
      assert r == r[..|path|];
    }
  }

  /** What the backtracking search leaves behind: either it returned, with whether it reached
      the goal, the ids it appended to each limb's path after the seed, and its move counter;
      or it raised (a `RecursionError` on a long route, say). */
  datatype SearchOutcome =
    | Finished(success: bool, appended: PerLimb<seq<int>>, moveCount: nat)
    | SearchRaised

  /** Why climbing_algorithm raised. */
  datatype Fault = NotEnoughHolds | UnknownStartPosition | TopHoldNotFound | SearchFailed

  datatype AlgorithmResult = AlgorithmResult(success: bool, paths: PerLimb<seq<int>>, starts: PerLimb<Point>)

  predicate HasId(holds: seq<WallHold>, id: int) {
    exists k :: 0 <= k < |holds| && holds[k].id == id
  }

  /** One limb's final path: its seed id, then what the search appended, then copies of the
      last id up to the move count. */
  function LimbPath(seed: int, appended: seq<int>, moveCount: int): (p: seq<int>)
    ensures |p| >= 1 + |appended| && |p| >= moveCount
    ensures p[0] == seed && p[1..1 + |appended|] == appended
    ensures forall i :: 1 + |appended| <= i < |p| ==> p[i] == p[|appended|]
  {
    var grown := [seed] + appended;
    var p := Padded(grown, moveCount);
    assert p[..|grown|] == grown;
    assert p[0] == grown[0] && p[1..1 + |appended|] == grown[1..];
    p
  }

  /** Padding adds nothing once the search's additions are at least as many as its move
      counter, which the backtracking bookkeeping of climbing2.py always ensures: every move
      appends to all four paths, and undoing a move removes from one path only. */
  lemma PaddingIdle(seed: int, appended: seq<int>, moveCount: int)
    requires |appended| >= moveCount
    ensures LimbPath(seed, appended, moveCount) == [seed] + appended
  {
    var p := LimbPath(seed, appended, moveCount);
    assert p == p[..1] + p[1..1 + |appended|];
  }

  /** climbing_algorithm: start positions (raising under four holds), seeds, the goal-hold
      lookup, the search's additions, and the padding loop up to the move count. */
  function ClimbingAlgorithm(holds: seq<WallHold>, topId: int, search: SearchOutcome)
    : (r: Result<AlgorithmResult, Fault>)
    ensures |holds| < 4 ==> r == Err(NotEnoughHolds)
    ensures |holds| >= 4 && !HasId(holds, topId) ==> r == Err(TopHoldNotFound)
    ensures |holds| >= 4 && HasId(holds, topId) && search.SearchRaised? ==> r == Err(SearchFailed)
    ensures |holds| >= 4 && HasId(holds, topId) && search.Finished? ==> r.Ok?
    ensures r.Ok? ==>
              && search.Finished?
              && r.value.success == search.success
              && Some(r.value.starts) == AssignStartPositions(holds)
              && forall l: Limb :: PositionToId(holds, r.value.starts.Get(l)).Some?
                   && r.value.paths.Get(l)
                      == LimbPath(PositionToId(holds, r.value.starts.Get(l)).value,
                                  search.appended.Get(l), search.moveCount)
  {
    match AssignStartPositions(holds)
    case None => Err(NotEnoughHolds)
    case Some(starts) =>
      StartsAreKnown(holds, starts);
      match SeedPaths(holds, starts)
      case None => Err(UnknownStartPosition)
      case Some(seeds) =>
        if !HasId(holds, topId) then Err(TopHoldNotFound)
        else if search.SearchRaised? then Err(SearchFailed)
        else
          var paths := Tabulate((l: Limb) =>
                                  LimbPath(seeds.Get(l)[0], search.appended.Get(l), search.moveCount));
          Ok(AlgorithmResult(search.success, paths, starts))
  }

  /** Every start position is the position of some hold, so the seeding lookup never raises. */
  lemma StartsAreKnown(holds: seq<WallHold>, starts: PerLimb<Point>)
    requires AssignStartPositions(holds) == Some(starts)
    ensures forall l: Limb :: PositionToId(holds, starts.Get(l)).Some?
  {
    forall l: Limb ensures PositionToId(holds, starts.Get(l)).Some? {
      var k :| 0 <= k < |holds| && holds[k].pos == starts.Get(l);
    }
  }

  /** Every limb's path begins with the id of a hold standing at that limb's start position. */
  lemma PathsStartAtStartHolds(holds: seq<WallHold>, topId: int, search: SearchOutcome)
    requires |holds| >= 4 && HasId(holds, topId) && search.Finished?
    ensures ClimbingAlgorithm(holds, topId, search).Ok?
    ensures var result := ClimbingAlgorithm(holds, topId, search).value;
            forall l: Limb :: |result.paths.Get(l)| > 0
              && exists k :: 0 <= k < |holds| && holds[k].pos == result.starts.Get(l)
                             && holds[k].id == result.paths.Get(l)[0]
  {
    var result := ClimbingAlgorithm(holds, topId, search).value;
    forall l: Limb
      ensures |result.paths.Get(l)| > 0
      ensures exists k :: 0 <= k < |holds| && holds[k].pos == result.starts.Get(l)
                          && holds[k].id == result.paths.Get(l)[0]
    {
      var id := PositionToId(holds, result.starts.Get(l)).value;
      assert result.paths.Get(l)[0] == id;
    }
  }
}

=== FILE: endpoint.dfy ===
/** receive_json (climbing2.py): the request pipeline and the status code it answers with. */
module Endpoint {
  import opened Wrappers
  import opened Space
  import opened Limbs
  import opened Json
  import opened HoldParsing
  import opened StartSelection
  import opened Climbing

  /** What the broad `except Exception` caught. */
  datatype Reason =
    | Parse(error: ParseError)
    | NonNumericCoordinate
    | NoHolds
    | Algorithm(fault: Fault)

  /** How the handler's work ended before it chose a response. */
  datatype Outcome =
    | NoJson
    | Computed(success: bool, paths: PerLimb<seq<int>>)
    | Raised(reason: Reason)

  /** Response bodies: `{"paths": ...}`, the empty string, or `{"error": ...}`. */
  datatype Body = PathsBody(paths: PerLimb<seq<int>>) | EmptyBody | NoJsonError | ExceptionError(reason: Reason)

  datatype HttpReply = HttpReply(status: int, body: Body)

  /** The status decision: 400 without JSON, 200 with exactly the paths on success, 204 with an
      empty body when the search failed, 500 with the error for anything raised. */
  function Respond(o: Outcome): (r: HttpReply)
    ensures r.status == 400 <==> o.NoJson?
    ensures r.status == 200 <==> o.Computed? && o.success
    ensures r.status == 204 <==> o.Computed? && !o.success
    ensures r.status == 500 <==> o.Raised?
    ensures r.status == 200 ==> r.body == PathsBody(o.paths)
    ensures r.status == 204 ==> r.body == EmptyBody
    ensures r.status == 500 ==> r.body == ExceptionError(o.reason)
  {
    match o
    case NoJson => HttpReply(400, NoJsonError)
    case Computed(success, paths) => if success then HttpReply(200, PathsBody(paths)) else HttpReply(204, EmptyBody)
    case Raised(reason) => HttpReply(500, ExceptionError(reason))
  }

  /** The coordinates of every parsed hold, read as numbers. */
  function ToWall(parsed: seq<ParsedHold>): (r: Option<seq<WallHold>>)
    requires forall k :: 0 <= k < |parsed| ==> |parsed[k].position| == 3
    ensures r.Some? <==> forall k :: 0 <= k < |parsed| ==> Coordinates(parsed[k].position).Some?
    ensures r.Some? ==> |r.value| == |parsed| && forall k :: 0 <= k < |parsed| ==>
              r.value[k] == WallHold(parsed[k].id, Coordinates(parsed[k].position).value, parsed[k].kind)
    decreases |parsed|
  {
    if |parsed| == 0 then Some([])
    else
      var front := parsed[..|parsed| - 1];
      var last := parsed[|parsed| - 1];
      assert forall k :: 0 <= k < |front| ==> front[k] == parsed[k];
      match (ToWall(front), Coordinates(last.position))
      case (Some(hs), Some(p)) => Some(hs + [WallHold(last.id, p, last.kind)])
      case _ => None
  }

  /** The goal hold is one of the holds, so climbing_algorithm always finds its id. */
  lemma TopHoldIsKnown(holds: seq<WallHold>)
    requires |holds| > 0
    ensures HasId(holds, FindTopHold(holds).value.id)
  {
    var top := FindTopHold(holds).value;
    var k :| 0 <= k < |holds| && holds[k] == top;
  }

  /** parse_holds, find_top_hold and climbing_algorithm in turn; the first to raise decides.
      Holds that parse with numeric coordinates reach the search exactly when there are at
      least four of them, and an exception from the search is caught like any other. */
  function Handle(data: Option<Json>, search: SearchOutcome): (o: Outcome)
    ensures o.NoJson? <==> data.None? || !Truthy(data.value)
    ensures o.Computed? ==> search.Finished? && o.success == search.success
    ensures data.Some? && Truthy(data.value) && ParseHolds(data.value).Err? ==>
              o == Raised(Parse(ParseHolds(data.value).error))
    ensures data.Some? && Truthy(data.value) && ParseHolds(data.value).Ok?
            && ToWall(ParseHolds(data.value).value).Some? ==>
              && (o.Computed? <==> |ParseHolds(data.value).value| >= 4 && search.Finished?)
              && (|ParseHolds(data.value).value| >= 4 && search.SearchRaised? ==>
                    o == Raised(Algorithm(SearchFailed)))
  {
    if data.None? || !Truthy(data.value) then NoJson
    else match ParseHolds(data.value)
      case Err(e) => Raised(Parse(e))
      case Ok(parsed) =>
        match ToWall(parsed)
        case None => Raised(NonNumericCoordinate)
        case Some(holds) =>
          match FindTopHold(holds)
          case None => Raised(NoHolds)
          case Some(top) =>
            TopHoldIsKnown(holds);
            match ClimbingAlgorithm(holds, top.id, search)
            case Err(f) => Raised(Algorithm(f))
            case Ok(result) => Computed(result.success, result.paths)
  }

  /** receive_json. */
  function ReceiveJson(data: Option<Json>, search: SearchOutcome): (r: HttpReply)
    ensures r.status == 400 <==> data.None? || !Truthy(data.value)
    ensures data.Some? && Truthy(data.value) && ParseHolds(data.value).Err? ==>
              r == HttpReply(500, ExceptionError(Parse(ParseHolds(data.value).error)))
    ensures data.Some? && Truthy(data.value) && ParseHolds(data.value).Ok?
            && ToWall(ParseHolds(data.value).value).Some? ==>
              var n := |ParseHolds(data.value).value|;
              && (n < 4 ==> r.status == 500)
              && (n >= 4 && search.SearchRaised? ==> r.status == 500)
              && (n >= 4 && search.Finished? ==> r.status == (if search.success then 200 else 204))
  {
    Respond(Handle(data, search))
  }
}

=== FILE: hold_parsing.dfy ===
/** parse_holds (climbing2.py): validation of the request body into hold records. */
module HoldParsing {
  import opened Wrappers
  import opened Space
  import opened Json

  /** A validated hold: integer id, the raw three-element position list and the raw type
      (colour is dropped). */
  datatype ParsedHold = ParsedHold(id: int, position: seq<Json>, kind: Json)

  /** Why parse_holds raised; every case leaves the function as a ValueError. */
  datatype ParseError =
    | NotAnObject                        // data.get on a non-dict: AttributeError
    | HoldsNotList                       // "Holds must be a list."
    | NotSubscriptable                   // hold["id"] on a non-dict: TypeError
    | MissingKey(key: string)            // KeyError
    | BadId(value: Json)                 // int(...) raised
    | BadPosition(id: int, value: Json)  // "Invalid position for hold ID ..."

  const DefaultType: Json := JStr("unknown")

  /** What a single hold object must look like to pass validation. */
  predicate Acceptable(j: Json) {
    && j.JObj?
    && "id" in j.fields && IntOf(j.fields["id"]).Some?
    && "position" in j.fields && j.fields["position"].JArr? && |j.fields["position"].items| == 3
  }

  /** One iteration of the loop over `holds`, in the order the source evaluates it: the id
      first, then the position lookup, the type default, and the position check. */
  function ParseHold(j: Json): (r: Result<ParsedHold, ParseError>)
    ensures r.Ok? <==> Acceptable(j)
    ensures r.Ok? ==>
              && r.value.id == IntOf(j.fields["id"]).value
              && JArr(r.value.position) == j.fields["position"]
              && r.value.kind == (if "type" in j.fields then j.fields["type"] else DefaultType)
    ensures r.Err? && j.JObj? && "id" in j.fields && IntOf(j.fields["id"]).Some?
              && "position" in j.fields ==>
              r.error == BadPosition(IntOf(j.fields["id"]).value, j.fields["position"])
  {
    if !j.JObj? then Err(NotSubscriptable)
    else
      var fields := j.fields;
      if "id" !in fields then Err(MissingKey("id"))
      else if IntOf(fields["id"]).None? then Err(BadId(fields["id"]))
      else
        var id := IntOf(fields["id"]).value;
        if "position" !in fields then Err(MissingKey("position"))
        else
          var kind := if "type" in fields then fields["type"] else DefaultType;
          var position := fields["position"];
          if position.JArr? && |position.items| == 3 then Ok(ParsedHold(id, position.items, kind))
          else Err(BadPosition(id, position))
  }

  /** The loop over the list: stops at the first hold that fails. */
  function ParseList(items: seq<Json>): (r: Result<seq<ParsedHold>, ParseError>)
    ensures r.Ok? <==> forall k :: 0 <= k < |items| ==> ParseHold(items[k]).Ok?
    ensures r.Ok? ==> |r.value| == |items|
                      && forall k :: 0 <= k < |items| ==> r.value[k] == ParseHold(items[k]).value
    ensures r.Err? ==> exists k :: 0 <= k < |items|
                                    && ParseHold(items[k]) == Err(r.error)
                                    && forall j :: 0 <= j < k ==> ParseHold(items[j]).Ok?
    decreases |items|
  {
    if |items| == 0 then Ok([])
    else
      var last := items[|items| - 1];
      var front := items[..|items| - 1];
      match ParseList(front)
      case Err(e) =>
        assert forall k :: 0 <= k < |front| ==> front[k] == items[k];
        Err(e)
      case Ok(hs) =>
        match ParseHold(last)
        case Err(e) =>
          assert forall k :: 0 <= k < |front| ==> front[k] == items[k];
          assert ParseHold(items[|items| - 1]) == Err(e);
          Err(e)
        case Ok(h) =>
          assert forall k :: 0 <= k < |front| ==> front[k] == items[k];
          Ok(hs + [h])
  }

  /** parse_holds: `data["holds"]` must be a list whose every element is acceptable; the
      result has one record per element, in order. */
  function ParseHolds(data: Json): (r: Result<seq<ParsedHold>, ParseError>)
    ensures !data.JObj? ==> r == Err(NotAnObject)
    ensures data.JObj? && ("holds" !in data.fields || !data.fields["holds"].JArr?) ==>
              r == Err(HoldsNotList)
    ensures r.Ok? <==> data.JObj? && "holds" in data.fields && data.fields["holds"].JArr?
                       && forall k :: 0 <= k < |data.fields["holds"].items| ==>
                            Acceptable(data.fields["holds"].items[k])
    ensures r.Ok? ==> |r.value| == |data.fields["holds"].items|
                      && forall k :: 0 <= k < |r.value| ==>
                           r.value[k] == ParseHold(data.fields["holds"].items[k]).value
  {
    match data
    case JObj(fields) =>
      if "holds" in fields && fields["holds"].JArr? then ParseList(fields["holds"].items)
      else Err(HoldsNotList)
    case _ => Err(NotAnObject)
  }

  /** The search compares coordinates as numbers; a hold whose three coordinates are all
      numbers becomes a point. */
  function Coordinates(position: seq<Json>): (r: Option<Point>)
    requires |position| == 3
    ensures r.Some? <==> forall k :: 0 <= k < 3 ==> NumberOf(position[k]).Some?
    ensures r.Some? ==> NumberOf(position[0]) == Some(r.value.x)
                        && NumberOf(position[1]) == Some(r.value.y)
                        && NumberOf(position[2]) == Some(r.value.z)
  {
    match (NumberOf(position[0]), NumberOf(position[1]), NumberOf(position[2]))
    case (Some(x), Some(y), Some(z)) => Some(Point(x, y, z))
    case _ => None
  }
}

=== FILE: hold_store.dfy ===
/** The editor's in-memory collections of holds and connections and the handlers that
    change them (App.tsx, ClimbingRoute3DApp). */
module HoldStore {
  import opened Wrappers
  import opened Space
  import opened Seqs
  import Transport

  datatype HoldType = Jug | Crimp | Nub

  datatype Hold = Hold(id: int, position: Point, color: string, kind: HoldType)

  /** An edge between two hold ids; its colour is `undefined` (None) when the solver used a
      key that names no limb. */
  datatype Connection = Connection(startId: int, endId: int, color: Option<string>)

  datatype AnimatedPath = AnimatedPath(path: seq<Point>, limb: string, color: Option<string>)

  /** The editor component's state. `notice` is the open notification's message. */
  datatype State = State(
    holds: seq<Hold>,
    connections: seq<Connection>,
    animatedPaths: seq<AnimatedPath>,
    counter: int,
    selected: Option<int>,
    notice: Option<string>,
    pickerOpen: bool,
    transport: Transport.Flags)

  const DefaultColor: string := "#000000"
  const FirstId: int := 1

  const Initial: State := State([], [], [], FirstId, None, None, false, Transport.Stopped)

  /** `holds.find(h => h.id === id)`: the first hold carrying `id`. */
  function Find(holds: seq<Hold>, id: int): (r: Option<Hold>)
    ensures r.Some? ==> r.value.id == id
    ensures r.None? <==> forall h :: h in holds ==> h.id != id
    ensures r.Some? ==> exists k :: 0 <= k < |holds| && holds[k] == r.value
                          && forall j :: 0 <= j < k ==> holds[j].id != id
  {
    if |holds| == 0 then None
    else if holds[0].id == id then Some(holds[0])
    else
      var r := Find(holds[1..], id);
      assert r.Some? ==> exists k :: 0 <= k < |holds[1..]| && holds[1..][k] == r.value
                          && forall j :: 0 <= j < k ==> holds[1..][j].id != id;
      assert r.Some? ==> exists k :: 1 <= k < |holds| && holds[k] == r.value
                          && forall j :: 1 <= j < k ==> holds[j].id != id;
      r
  }

  /** The store's id discipline: ids are positive, strictly increasing in list order
      (so pairwise distinct) and all below the counter that will number the next hold. */
  predicate IdsFresh(s: State) {
    && s.counter >= FirstId
    && (forall i :: 0 <= i < |s.holds| ==> FirstId <= s.holds[i].id < s.counter)
    && Increasing(s.holds)
  }

  /** handleAddHold: a pointer event that carries a point appends one default hold
      numbered by the counter and advances the counter; an event without a point does nothing. */
  function AddHold(s: State, point: Option<Point>): (r: State)
    ensures point.None? ==> r == s
    ensures point.Some? ==>
              && |r.holds| == |s.holds| + 1
              && r.holds[..|s.holds|] == s.holds
              && r.holds[|s.holds|] == Hold(s.counter, point.value, DefaultColor, Jug)
              && r.counter == s.counter + 1
              && r == s.(holds := r.holds, counter := r.counter)
    ensures IdsFresh(s) ==> IdsFresh(r)
    ensures IdsFresh(s) && point.Some? ==> forall h :: h in s.holds ==> h.id < r.holds[|s.holds|].id
  {
    match point
    case None => s
    case Some(p) =>
      s.(holds := s.holds + [Hold(s.counter, p, DefaultColor, Jug)], counter := s.counter + 1)
  }

  /** Clicking a hold's sphere selects it. */
  function SelectHold(s: State, id: int): State {
    s.(selected := Some(id))
  }

  /** The two filter tests of handleRemoveHold: a hold survives unless it carries `id`, a
      connection unless one of its ends is `id`. */
  function OtherHold(id: int): Hold -> bool {
    (h: Hold) => h.id != id
  }

  function Untouched(id: int): Connection -> bool {
    (c: Connection) => c.startId != id && c.endId != id
  }

  /** handleRemoveHold: with a selection, drops every hold with the selected id and every
      connection touching it, clears the selection and notifies; otherwise nothing happens. */
  function RemoveHold(s: State): (r: State)
    ensures s.selected.None? ==> r == s
    ensures s.selected.Some? ==>
              var id := s.selected.value;
              && (forall h :: h in r.holds <==> h in s.holds && h.id != id)
              && (forall c :: c in r.connections <==> c in s.connections && c.startId != id && c.endId != id)
              && |r.holds| <= |s.holds| && |r.connections| <= |s.connections|
              && r.holds == Keep(s.holds, OtherHold(id))
              && r.connections == Keep(s.connections, Untouched(id))
              && r == s.(holds := r.holds, connections := r.connections, selected := None,
                         notice := Some("Hold removed!"))
    ensures IdsFresh(s) ==> IdsFresh(r)
  {
    match s.selected
    case None => s
    case Some(id) =>
      var holds := Keep(s.holds, OtherHold(id));
      var connections := Keep(s.connections, Untouched(id));
      KeepIncreasing(s.holds, id);
      s.(holds := holds, connections := connections, selected := None, notice := Some("Hold removed!"))
  }

  /** Ids strictly increasing in list order. */
  predicate Increasing(holds: seq<Hold>) {
    forall i, j :: 0 <= i < j < |holds| ==> holds[i].id < holds[j].id
  }

  /** Removing holds keeps the survivors' ids strictly increasing. */
  lemma {:induction false} KeepIncreasing(holds: seq<Hold>, id: int)
    ensures Increasing(holds) ==> Increasing(Keep(holds, OtherHold(id)))
  {
    if |holds| > 0 && Increasing(holds) {
      var tail := holds[1..];
      assert Increasing(tail) by {
        forall i, j | 0 <= i < j < |tail| ensures tail[i].id < tail[j].id {
          assert tail[i] == holds[i + 1] && tail[j] == holds[j + 1];
        }
      }
      KeepIncreasing(tail, id);
      var rest := Keep(tail, OtherHold(id));
      if holds[0].id != id {
        var r := [holds[0]] + rest;
        assert r == Keep(holds, OtherHold(id));
        forall i, j | 0 <= i < j < |r| ensures r[i].id < r[j].id {
          if i == 0 {
            assert r[j] == rest[j - 1];
            assert r[j] in tail;
            var k :| 0 <= k < |tail| && tail[k] == r[j];
            assert holds[k + 1] == r[j];
          } else {
            assert r[i] == rest[i - 1] && r[j] == rest[j - 1];
          }
        }
      }
    }
  }

  /** clearHolds: empties holds, connections and animated paths and restarts numbering at 1,
      whatever came before. Selection, transport and colour picker are left as they were. */
  function ClearHolds(s: State): (r: State)
    ensures r.holds == [] && r.connections == [] && r.animatedPaths == []
    ensures r.counter == FirstId && r.notice == Some("All holds cleared!")
    ensures r.selected == s.selected && r.transport == s.transport && r.pickerOpen == s.pickerOpen
    ensures IdsFresh(r)
  {
    s.(holds := [], connections := [], animatedPaths := [], counter := FirstId,
       notice := Some("All holds cleared!"))
  }

  /** changeHoldColor: with a selection, recolours the holds carrying the selected id and
      closes the colour picker; otherwise nothing happens. */
  function ChangeHoldColor(s: State, color: string): (r: State)
    ensures s.selected.None? ==> r == s
    ensures s.selected.Some? ==>
              && |r.holds| == |s.holds|
              && (forall i :: 0 <= i < |s.holds| ==>
                    && r.holds[i].id == s.holds[i].id
                    && r.holds[i].position == s.holds[i].position
                    && r.holds[i].kind == s.holds[i].kind
                    && r.holds[i].color == (if s.holds[i].id == s.selected.value then color
                                            else s.holds[i].color))
              && r == s.(holds := r.holds, notice := Some("Hold color changed!"), pickerOpen := false)
    ensures IdsFresh(s) ==> IdsFresh(r)
  {
    match s.selected
    case None => s
    case Some(id) =>
      s.(holds := Recolor(s.holds, id, color), notice := Some("Hold color changed!"), pickerOpen := false)
  }

  /** `holds.map(...)` of changeHoldColor. */
  function Recolor(holds: seq<Hold>, id: int, color: string): (r: seq<Hold>)
    ensures |r| == |holds|
    ensures forall i :: 0 <= i < |holds| ==>
              r[i] == if holds[i].id == id then holds[i].(color := color) else holds[i]
  {
    if |holds| == 0 then []
    else [if holds[0].id == id then holds[0].(color := color) else holds[0]]
         + Recolor(holds[1..], id, color)
  }

  /** A line segment drawn for a connection between the positions of its two endpoints. */
  datatype Segment = Segment(conn: Connection, from: Point, to: Point)

  /** The connection render filter: a connection is drawn only when both endpoint ids
      match a hold, between the positions of the first holds carrying them. */
  function Visible(holds: seq<Hold>, conns: seq<Connection>): (r: seq<Segment>)
    ensures |r| <= |conns|
    ensures forall k :: 0 <= k < |r| ==>
              && r[k].conn in conns
              && Find(holds, r[k].conn.startId).Some?
              && Find(holds, r[k].conn.startId).value.position == r[k].from
              && Find(holds, r[k].conn.endId).Some?
              && Find(holds, r[k].conn.endId).value.position == r[k].to
    ensures forall c :: c in conns && Find(holds, c.startId).Some? && Find(holds, c.endId).Some? ==>
              exists seg :: seg in r && seg.conn == c
  {
    if |conns| == 0 then []
    else
      var c := conns[0];
      var rest := Visible(holds, conns[1..]);
      match (Find(holds, c.startId), Find(holds, c.endId))
      case (Some(a), Some(b)) =>
        var r := [Segment(c, a.position, b.position)] + rest;
        assert forall k :: 0 <= k < |rest| ==> r[k + 1] == rest[k];
        r
      case _ => rest
  }

  /** Whether a connection passes the render filter: both endpoint ids match a hold. */
  function Drawable(holds: seq<Hold>): Connection -> bool {
    (c: Connection) => Find(holds, c.startId).Some? && Find(holds, c.endId).Some?
  }

  function ConnsOf(segs: seq<Segment>): seq<Connection> {
    seq(|segs|, k requires 0 <= k < |segs| => segs[k].conn)
  }

  lemma ConnsOfCons(seg: Segment, rest: seq<Segment>)
    ensures ConnsOf([seg] + rest) == [seg.conn] + ConnsOf(rest)
  {
    var l := ConnsOf([seg] + rest);
    var m := [seg.conn] + ConnsOf(rest);
    assert |l| == |m|;
    forall k | 0 <= k < |l| ensures l[k] == m[k] {
      if k > 0 {
        assert ([seg] + rest)[k] == rest[k - 1];
      }
    }
  }

  /** The drawn segments are the filter of the connection list, in order and with
      duplicates: segment k belongs to the k-th connection that passes the filter. */
  lemma {:induction false} VisibleIsFilter(holds: seq<Hold>, conns: seq<Connection>)
    ensures ConnsOf(Visible(holds, conns)) == Keep(conns, Drawable(holds))
    decreases |conns|
  {
    if |conns| > 0 {
      VisibleIsFilter(holds, conns[1..]);
      var rest := Visible(holds, conns[1..]);
      var c := conns[0];
      var kept := Keep(conns[1..], Drawable(holds));
      if Find(holds, c.startId).Some? && Find(holds, c.endId).Some? {
        var seg := Segment(c, Find(holds, c.startId).value.position, Find(holds, c.endId).value.position);
        assert Visible(holds, conns) == [seg] + rest;
        ConnsOfCons(seg, rest);
        assert Keep(conns, Drawable(holds)) == [c] + kept;
      } else {
        assert Visible(holds, conns) == rest;
        assert Keep(conns, Drawable(holds)) == kept;
      }
    }
  }

  /** After a removal no drawn segment belongs to a connection that touches the removed id. */
  lemma RemovedHoldIsNotDrawn(s: State)
    requires s.selected.Some?
    ensures var r := RemoveHold(s);
            forall k :: 0 <= k < |Visible(r.holds, r.connections)| ==>
              Visible(r.holds, r.connections)[k].conn.startId != s.selected.value
              && Visible(r.holds, r.connections)[k].conn.endId != s.selected.value
  {
  }

  /** Clicking a hold and then pressing remove deletes exactly the holds with that id and the
      connections touching it, whatever was selected before, and leaves nothing selected. */
  lemma SelectThenRemove(s: State, id: int)
    ensures var r := RemoveHold(SelectHold(s, id));
            && (forall h :: h in r.holds <==> h in s.holds && h.id != id)
            && (forall c :: c in r.connections <==> c in s.connections && c.startId != id && c.endId != id)
            && r.selected.None?
            && r.counter == s.counter && r.transport == s.transport
  {
  }
}

=== FILE: json.dfy ===
/** JSON values as the back end receives them from `request.get_json()`, with the two Python
    conversions it applies to them: truthiness and `int(...)`. */
module Json {
  import opened Wrappers

  /** Numbers are finite; a JSON object is a map, since Python keeps the last duplicate key. */
  datatype Json =
    | JNull
    | JBool(b: bool)
    | JNum(n: real)
    | JStr(s: string)
    | JArr(items: seq<Json>)
    | JObj(fields: map<string, Json>)

  /** Python truthiness of a decoded value. */
  predicate Truthy(j: Json) {
    match j
    case JNull => false
    case JBool(b) => b
    case JNum(n) => n != 0.0
    case JStr(s) => |s| > 0
    case JArr(items) => |items| > 0
    case JObj(fields) => |fields| > 0
  }

  /** `int(n)` of a float: truncation toward zero. */
  function Truncate(n: real): (r: int)
    ensures 0.0 <= n ==> r as real <= n < r as real + 1.0
    ensures n < 0.0 ==> r as real - 1.0 < n <= r as real
  {
    if n >= 0.0 then n.Floor else -((-n).Floor)
  }

  lemma TruncateWhole(i: int)
    ensures Truncate(i as real) == i
  {
  }

  predicate IsDigit(c: char) {
    '0' <= c <= '9'
  }

  /** The value of a run of ASCII digits. */
  function DigitsValue(s: string): (r: nat)
    requires forall k :: 0 <= k < |s| ==> IsDigit(s[k])
    decreases |s|
  {
    if |s| == 0 then 0
    else
      assert IsDigit(s[|s| - 1]);
      DigitsValue(s[..|s| - 1]) * 10 + (s[|s| - 1] as int - '0' as int)
  }

  predicate AllDigits(s: string) {
    forall k :: 0 <= k < |s| ==> IsDigit(s[k])
  }

  /** `int(s)` of a string: an optional sign followed by decimal digits. */
  function ParseDecimal(s: string): (r: Option<int>)
    ensures r.Some? <==> || (|s| > 0 && AllDigits(s))
                         || (|s| > 1 && (s[0] == '-' || s[0] == '+') && AllDigits(s[1..]))
    ensures r.Some? && AllDigits(s) ==> r.value == DigitsValue(s)
    ensures r.Some? && s[0] == '+' ==> r.value == DigitsValue(s[1..])
    ensures r.Some? && s[0] == '-' ==> r.value == -(DigitsValue(s[1..]) as int)
  {
    if |s| > 0 && (s[0] == '-' || s[0] == '+') then
      var digits := s[1..];
      if |digits| > 0 && forall k :: 0 <= k < |digits| ==> IsDigit(digits[k]) then
        Some(if s[0] == '-' then -(DigitsValue(digits) as int) else DigitsValue(digits))
      else None
    else if |s| > 0 && forall k :: 0 <= k < |s| ==> IsDigit(s[k]) then Some(DigitsValue(s))
    else None
  }

  /** The decimal digits of a natural number, most significant first. */
  function Digits(n: nat): (r: string)
    ensures |r| > 0 && forall k :: 0 <= k < |r| ==> IsDigit(r[k])
    decreases n
  {
    if n < 10 then ['0' + n as char] else Digits(n / 10) + ['0' + (n % 10) as char]
  }

  /** Python's `str(i)` of an integer. */
  function Show(i: int): string {
    if i < 0 then "-" + Digits(-i) else Digits(i)
  }

  lemma {:induction false} DigitsValueOfDigits(n: nat)
    ensures DigitsValue(Digits(n)) == n
    decreases n
  {
    var d := Digits(n);
    if n >= 10 {
      DigitsValueOfDigits(n / 10);
      assert d[..|d| - 1] == Digits(n / 10);
    }
  }

  /** Reading back the decimal form of an integer gives the integer. */
  lemma ParseShow(i: int)
    ensures ParseDecimal(Show(i)) == Some(i)
  {
    var n: nat := if i < 0 then -i else i;
    var d := Digits(n);
    DigitsValueOfDigits(n);
    assert IsDigit(d[0]);
    if i < 0 {
      var s := Show(i);
      assert s == "-" + d;
      assert s[0] == '-' && s[1..] == d;
    } else {
      assert Show(i) == d;
    }
  }

  /** Python's `int(value)` on a decoded value; None where it raises. */
  function IntOf(j: Json): (r: Option<int>)
    ensures j.JNum? ==> r == Some(Truncate(j.n))
    ensures j.JBool? ==> r == Some(if j.b then 1 else 0)
    ensures j.JStr? ==> r == ParseDecimal(j.s)
    ensures j.JNull? || j.JArr? || j.JObj? ==> r.None?
  {
    match j
    case JBool(b) => Some(if b then 1 else 0)
    case JNum(n) => Some(Truncate(n))
    case JStr(s) => ParseDecimal(s)
    case _ => None
  }

  /** Python's `float(value)`-style reading of a number used as a coordinate; `True` and
      `False` compare as 1 and 0. */
  function NumberOf(j: Json): (r: Option<real>)
    ensures r.Some? <==> j.JNum? || j.JBool?
    ensures j.JNum? ==> r == Some(j.n)
    ensures j.JBool? ==> r == Some(if j.b then 1.0 else 0.0)
  {
    match j
    case JNum(n) => Some(n)
    case JBool(b) => Some(if b then 1.0 else 0.0)
    case _ => None
  }
}

=== FILE: limbs.dfy ===
/** The four limbs of the climber, their wire names and their display colours. */
module Limbs {
  import opened Wrappers

  datatype Limb = LeftHand | RightHand | LeftFoot | RightFoot

  /** The key under which a limb's path travels in the solver's `paths` object. */
  function Name(l: Limb): string {
    match l
    case LeftHand => "left_hand"
    case RightHand => "right_hand"
    case LeftFoot => "left_foot"
    case RightFoot => "right_foot"
  }

  /** Reads a key of the `paths` object back as a limb. */
  function FromName(s: string): (r: Option<Limb>)
    ensures r.Some? ==> Name(r.value) == s
    ensures r.None? ==> forall l: Limb :: Name(l) != s
  {
    if s == "left_hand" then Some(LeftHand)
    else if s == "right_hand" then Some(RightHand)
    else if s == "left_foot" then Some(LeftFoot)
    else if s == "right_foot" then Some(RightFoot)
    else None
  }

  /** The fixed colour table of the editor's legend. */
  function Color(l: Limb): string {
    match l
    case LeftHand => "red"
    case RightHand => "blue"
    case LeftFoot => "green"
    case RightFoot => "yellow"
  }

  /** `limbColors[key]`: the colour of a key of the `paths` object, `undefined` (None)
      when the key names no limb. */
  function ColorOfKey(key: string): (r: Option<string>)
    ensures r.Some? <==> exists l: Limb :: Name(l) == key
    ensures forall l: Limb :: Name(l) == key ==> r == Some(Color(l))
  {
    match FromName(key)
    case Some(l) => Some(Color(l))
    case None => None
  }

  /** One value per limb, like the per-limb dictionaries of the back end. */
  datatype PerLimb<T> = PerLimb(leftHand: T, rightHand: T, leftFoot: T, rightFoot: T) {

    function Get(l: Limb): T {
      match l
      case LeftHand => leftHand
      case RightHand => rightHand
      case LeftFoot => leftFoot
      case RightFoot => rightFoot
    }
  }

  /** Builds a per-limb record from a function of the limb. */
  function Tabulate<T>(f: Limb -> T): (r: PerLimb<T>)
    ensures forall l: Limb :: r.Get(l) == f(l)
  {
    PerLimb(f(LeftHand), f(RightHand), f(LeftFoot), f(RightFoot))
  }
}

=== FILE: seqs.dfy ===
/** Order-preserving filtering of sequences (JavaScript's `Array.prototype.filter`). */
module Seqs {

  /** The elements of `xs` that satisfy `p`, in their original order. */
  function Keep<T(!new)>(xs: seq<T>, p: T -> bool): (r: seq<T>)
    ensures |r| <= |xs|
    ensures forall x :: x in r <==> x in xs && p(x)
    ensures (forall i :: 0 <= i < |xs| ==> p(xs[i])) ==> r == xs
  {
    if |xs| == 0 then []
    else if p(xs[0]) then [xs[0]] + Keep(xs[1..], p)
    else Keep(xs[1..], p)
  }

  /** Filtering distributes over concatenation: the survivors of `a` all precede those of `b`,
      so the relative order of the kept elements is the one they had in the input. */
  lemma {:induction false} KeepAppend<T(!new)>(a: seq<T>, b: seq<T>, p: T -> bool)
    ensures Keep(a + b, p) == Keep(a, p) + Keep(b, p)
  {
    if |a| == 0 {
      assert a + b == b;
    } else {
      assert (a + b)[1..] == a[1..] + b;
      KeepAppend(a[1..], b, p);
    }
  }
}

=== FILE: session.dfy ===
/** The editor as a whole: every user action as a transition of the component state, and the
    invariants that any sequence of actions keeps. */
module Session {
  import opened Wrappers
  import opened Space
  import opened HoldStore
  import Transport
  import SolverGateway

  datatype Action =
    | PointerDown(point: Option<Point>)
    | ClickHold(id: int)
    | RemoveSelected
    | ClearAll
    | ApplyColor(color: string)
    | ExportHolds(response: SolverGateway.Response)
    | PlayPause
    | StepForward

  function Apply(s: State, a: Action): State {
    match a
    case PointerDown(p) => AddHold(s, p)
    case ClickHold(id) => SelectHold(s, id)
    case RemoveSelected => RemoveHold(s)
    case ClearAll => ClearHolds(s)
    case ApplyColor(c) => ChangeHoldColor(s, c)
    case ExportHolds(resp) => SolverGateway.Export(s, resp)
    case PlayPause => s.(transport := Transport.PlayPause(s.transport))
    case StepForward => s.(transport := Transport.StepForward(s.transport))
  }

  function Run(s: State, actions: seq<Action>): State
    decreases |actions|
  {
    if |actions| == 0 then s else Run(Apply(s, actions[0]), actions[1..])
  }

  /** Ids fresh and increasing, transport modes exclusive. */
  predicate Good(s: State) {
    IdsFresh(s) && Transport.Exclusive(s.transport)
  }

  /** Every single action keeps the session good. */
  lemma ApplyKeepsGood(s: State, a: Action)
    requires Good(s)
    ensures Good(Apply(s, a))
  {
  }

  /** From the initial state, any sequence of user actions leaves ids positive, strictly
      increasing along the hold list (hence distinct) and below the counter, and never
      leaves playing and stepping on together. */
  lemma {:induction false} RunKeepsGood(s: State, actions: seq<Action>)
    requires Good(s)
    ensures Good(Run(s, actions))
    decreases |actions|
  {
    if |actions| > 0 {
      ApplyKeepsGood(s, actions[0]);
      RunKeepsGood(Apply(s, actions[0]), actions[1..]);
    }
  }

  /** The handler as written keeps the session good too: it differs from the corrected one
      only in the notice it shows. */
  lemma ExportAsWrittenKeepsGood(s: State, response: SolverGateway.Response)
    requires Good(s)
    ensures Good(SolverGateway.ExportAsWritten(s, response))
  {
    SolverGateway.ExportAgreesAwayFromNoContent(s, response);
    ApplyKeepsGood(s, ExportHolds(response));
  }

  lemma InitialIsGood()
    ensures Good(Initial)
  {
  }

  /** A hold added after any history gets an id larger than every id already present. */
  lemma {:induction false} NewHoldIdIsLargest(actions: seq<Action>, p: Point)
    ensures var s := Run(Initial, actions);
            var r := AddHold(s, Some(p));
            forall h :: h in s.holds ==> h.id < r.holds[|s.holds|].id
  {
    InitialIsGood();
    RunKeepsGood(Initial, actions);
  }
}

=== FILE: solver_gateway.dfy ===
/** exportHolds (App.tsx): the empty-store guard, the branch on the reply, and the mapping of
    the solver's per-limb id lists onto connections and animated paths. The network call is
    not modelled; its outcome is an input. */
module SolverGateway {
  import opened Wrappers
  import opened Space
  import opened Limbs
  import opened HoldStore
  import opened Seqs

  /** One entry of the reply's `paths` object, in `Object.keys` order. */
  datatype LimbIds = LimbIds(limb: string, ids: seq<int>)

  /** What `response.json()` yields: a parse failure, or an object whose `paths` member is
      truthy (Some) or absent/falsy (None). */
  datatype Body = Unparseable | Parsed(paths: Option<seq<LimbIds>>)

  /** The settled `fetch`: it threw, or it produced a status and a body. */
  datatype Response = NetworkFailure | Reply(status: int, body: Body)

  const MsgNothingToExport: string := "No holds to export!"
  const MsgNoPathsFound: string := "No paths found by the algorithm."
  const MsgExportFailed: string := "Export failed!"
  const MsgPathsReceived: string := "Paths received successfully!"
  const MsgNoPathsReceived: string := "Export successful but no paths received."

  /** `response.ok` of the Fetch standard: a status in the range 200-299. */
  predicate IsOk(status: int) {
    200 <= status <= 299
  }

  /** Statuses whose body the Fetch standard forces to be empty; parsing it as JSON throws. */
  predicate IsNullBodyStatus(status: int) {
    status == 204 || status == 205
  }

  /** The body `response.json()` actually sees. */
  function EffectiveBody(status: int, body: Body): Body {
    if IsNullBodyStatus(status) then Unparseable else body
  }

  /** The connections contributed by one limb: one per adjacent pair of its ids. */
  function Pairs(ids: seq<int>, color: Option<string>): (r: seq<Connection>)
    ensures |r| == if |ids| == 0 then 0 else |ids| - 1
    ensures forall i :: 0 <= i < |r| ==> r[i] == Connection(ids[i], ids[i + 1], color)
  {
    if |ids| < 2 then []
    else [Connection(ids[0], ids[1], color)] + Pairs(ids[1..], color)
  }

  /** The positions of those ids that match a hold, in order; unknown ids are skipped. */
  function Resolve(holds: seq<Hold>, ids: seq<int>): (r: seq<Point>)
    ensures |r| <= |ids|
    ensures forall p :: p in r ==> exists h :: h in holds && h.position == p
    ensures |r| == |ids| <==> forall i :: 0 <= i < |ids| ==> Find(holds, ids[i]).Some?
    ensures (forall i :: 0 <= i < |ids| ==> Find(holds, ids[i]).Some?) ==>
              forall i :: 0 <= i < |ids| ==> r[i] == Find(holds, ids[i]).value.position
  {
    if |ids| == 0 then []
    else
      var rest := Resolve(holds, ids[1..]);
      match Find(holds, ids[0])
      case Some(h) =>
        var r := [h.position] + rest;
        assert forall i :: 1 <= i < |ids| ==> ids[1..][i - 1] == ids[i];
        assert forall i :: 1 <= i < |r| ==> r[i] == rest[i - 1];
        r
      case None =>
        assert Find(holds, ids[0]).None?;
        rest
  }

  /** Whether an id names a hold of the store. */
  function Known(holds: seq<Hold>): int -> bool {
    (id: int) => Find(holds, id).Some?
  }

  /** Reference reading of an id list every element of which names a hold: the position of
      the first hold with each id, one point per id. */
  function Positions(holds: seq<Hold>, ids: seq<int>): seq<Point>
    requires forall id :: id in ids ==> Find(holds, id).Some?
  {
    seq(|ids|, k requires 0 <= k < |ids| => Find(holds, ids[k]).value.position)
  }

  /** Every id the filter keeps names a hold. */
  lemma KeptAreKnown(holds: seq<Hold>, ids: seq<int>)
    ensures forall id :: id in Keep(ids, Known(holds)) ==> Find(holds, id).Some?
  {
  }

  lemma PositionsCons(holds: seq<Hold>, id: int, rest: seq<int>)
    requires Find(holds, id).Some?
    requires forall x :: x in rest ==> Find(holds, x).Some?
    ensures forall x :: x in [id] + rest ==> Find(holds, x).Some?
    ensures Positions(holds, [id] + rest) == [Find(holds, id).value.position] + Positions(holds, rest)
  {
    var ids := [id] + rest;
    var l := Positions(holds, ids);
    var m := [Find(holds, id).value.position] + Positions(holds, rest);
    forall k | 0 <= k < |l| ensures l[k] == m[k] {
      if k > 0 {
        assert ids[k] == rest[k - 1];
      }
    }
  }

  /** The animated path of an id list is the filter of App.tsx followed by the lookup: drop
      the ids naming no hold, keep the rest in order, and take each one's position. */
  lemma {:induction false} ResolveSkipsUnknown(holds: seq<Hold>, ids: seq<int>)
    ensures var kept := Keep(ids, Known(holds));
            && (forall id :: id in kept ==> Find(holds, id).Some?)
            && Resolve(holds, ids) == Positions(holds, kept)
    decreases |ids|
  {
    KeptAreKnown(holds, ids);
    if |ids| > 0 {
      var rest := Keep(ids[1..], Known(holds));
      ResolveSkipsUnknown(holds, ids[1..]);
      if Find(holds, ids[0]).Some? {
        assert Keep(ids, Known(holds)) == [ids[0]] + rest;
        PositionsCons(holds, ids[0], rest);
      } else {
        assert Keep(ids, Known(holds)) == rest;
      }
    }
  }

  /** All connections of a reply, limb after limb. */
  function Connections(paths: seq<LimbIds>): (r: seq<Connection>)
    ensures |paths| == 0 ==> r == []
  {
    if |paths| == 0 then []
    else Connections(paths[..|paths| - 1])
         + Pairs(paths[|paths| - 1].ids, ColorOfKey(paths[|paths| - 1].limb))
  }

  /** Where the connections of limb entry `k` start in the combined list. */
  function Offset(paths: seq<LimbIds>, k: nat): nat
    requires k <= |paths|
  {
    |Connections(paths[..k])|
  }

  lemma {:induction false} ConnectionsAppend(a: seq<LimbIds>, b: seq<LimbIds>)
    ensures Connections(a + b) == Connections(a) + Connections(b)
    decreases |b|
  {
    if |b| == 0 {
      assert a + b == a;
    } else {
      var b' := b[..|b| - 1];
      assert (a + b)[..|a + b| - 1] == a + b';
      assert (a + b)[|a + b| - 1] == b[|b| - 1];
      ConnectionsAppend(a, b');
      assert b[..|b| - 1] == b';
    }
  }

  /** Limb entry `k` with an id list of length n >= 1 contributes exactly n - 1 connections,
      its consecutive pairs in order, coloured by the limb's colour, as one contiguous block
      that starts after the connections of the entries before it. */
  lemma ConnectionsOfLimb(paths: seq<LimbIds>, k: nat)
    requires k < |paths|
    ensures var ids := paths[k].ids;
            var n := if |ids| == 0 then 0 else |ids| - 1;
            && Offset(paths, k) + n == Offset(paths, k + 1) <= |Connections(paths)|
            && forall i :: 0 <= i < n ==>
                 Connections(paths)[Offset(paths, k) + i]
                   == Connection(ids[i], ids[i + 1], ColorOfKey(paths[k].limb))
  {
    assert paths[..k + 1][..k] == paths[..k];
    assert paths == paths[..k + 1] + paths[k + 1..];
    ConnectionsAppend(paths[..k + 1], paths[k + 1..]);
  }

  /** One animated path per entry of the reply, in order. */
  function AnimatedPaths(holds: seq<Hold>, paths: seq<LimbIds>): (r: seq<AnimatedPath>)
    ensures |r| == |paths|
    ensures forall k :: 0 <= k < |paths| ==>
              && r[k].limb == paths[k].limb
              && r[k].color == ColorOfKey(paths[k].limb)
              && r[k].path == Resolve(holds, paths[k].ids)
              && |r[k].path| <= |paths[k].ids|
  {
    if |paths| == 0 then []
    else
      var p := paths[0];
      var r := [AnimatedPath(Resolve(holds, p.ids), p.limb, ColorOfKey(p.limb))]
               + AnimatedPaths(holds, paths[1..]);
      assert forall k :: 1 <= k < |paths| ==> paths[1..][k - 1] == paths[k];
      r
  }

  /** The state after a reply with `paths`: both collections replaced wholesale. */
  function Install(s: State, paths: seq<LimbIds>): State {
    s.(connections := Connections(paths),
       animatedPaths := AnimatedPaths(s.holds, paths),
       notice := Some(MsgPathsReceived))
  }

  /** exportHolds exactly as written: the 204 test sits inside `!response.ok`. */
  function ExportAsWritten(s: State, response: Response): (r: State)
    ensures |s.holds| == 0 ==> r == s.(notice := Some(MsgNothingToExport))
    ensures r.holds == s.holds && r.counter == s.counter && r.selected == s.selected
    ensures r.transport == s.transport && r.pickerOpen == s.pickerOpen
  {
    if |s.holds| == 0 then s.(notice := Some(MsgNothingToExport))
    else match response
      case NetworkFailure => s.(notice := Some(MsgExportFailed))
      case Reply(status, body) =>
        if !IsOk(status) then
          if status == 204 then s.(notice := Some(MsgNoPathsFound))
          else s.(notice := Some(MsgExportFailed))
        else match EffectiveBody(status, body)
          case Unparseable => s.(notice := Some(MsgExportFailed))
          case Parsed(None) => s.(notice := Some(MsgNoPathsReceived))
          case Parsed(Some(paths)) => Install(s, paths)
  }

  /** The "no paths found" notice can never be shown: a 204 is `ok`, so the code goes on to
      parse its empty body, which fails. */
  lemma NoPathsNoticeUnreachable(s: State, response: Response)
    ensures ExportAsWritten(s, response).notice != Some(MsgNoPathsFound)
  {
  }

  /** The solver's "no paths" reply (status 204, empty body) is reported as a failure. */
  lemma NoContentReportedAsFailure(s: State)
    requires |s.holds| > 0
    ensures ExportAsWritten(s, Reply(204, Unparseable)).notice == Some(MsgExportFailed)
  {
  }

  /** The reply a non-empty export acts on: the id lists of an `ok` reply (other than
      "no content") whose body parses and carries `paths`. */
  function Delivered(response: Response): (r: Option<seq<LimbIds>>)
    ensures r.Some? <==> && response.Reply? && IsOk(response.status)
                         && !IsNullBodyStatus(response.status)
                         && response.body.Parsed? && response.body.paths.Some?
    ensures r.Some? ==> r == response.body.paths
  {
    match response
    case Reply(status, body) =>
      if status != 204 && IsOk(status) then
        match EffectiveBody(status, body)
        case Parsed(Some(paths)) => Some(paths)
        case _ => None
      else None
    case NetworkFailure => None
  }

  /** The notice for a reply that leaves the collections alone. */
  function Notice(response: Response): string {
    match response
    case NetworkFailure => MsgExportFailed
    case Reply(status, body) =>
      if status == 204 then MsgNoPathsFound
      else if !IsOk(status) then MsgExportFailed
      else match EffectiveBody(status, body)
        case Parsed(None) => MsgNoPathsReceived
        case _ => MsgExportFailed
  }

  /** exportHolds with the "no content" test made reachable: status 204 is examined before
      `ok`. An empty store makes no request; only a delivered reply touches the collections,
      replacing both at once; every other outcome changes nothing but the notice. */
  function Export(s: State, response: Response): (r: State)
    ensures |s.holds| == 0 ==> r == s.(notice := Some(MsgNothingToExport))
    ensures |s.holds| > 0 && Delivered(response).None? ==>
              r == s.(notice := Some(Notice(response)))
    ensures |s.holds| > 0 && Delivered(response).Some? ==>
              var paths := Delivered(response).value;
              && r.connections == Connections(paths)
              && r.animatedPaths == AnimatedPaths(s.holds, paths)
              && r == s.(connections := r.connections, animatedPaths := r.animatedPaths,
                         notice := Some(MsgPathsReceived))
    ensures |s.holds| > 0 && response.Reply? && response.status == 204 ==>
              r == s.(notice := Some(MsgNoPathsFound))
  {
    if |s.holds| == 0 then s.(notice := Some(MsgNothingToExport))
    else match response
      case NetworkFailure => s.(notice := Some(MsgExportFailed))
      case Reply(status, body) =>
        if status == 204 then s.(notice := Some(MsgNoPathsFound))
        else if !IsOk(status) then s.(notice := Some(MsgExportFailed))
        else match EffectiveBody(status, body)
          case Unparseable => s.(notice := Some(MsgExportFailed))
          case Parsed(None) => s.(notice := Some(MsgNoPathsReceived))
          case Parsed(Some(paths)) => Install(s, paths)
  }

  /** The two handlers differ only on a 204 reply, and there only in the notice. */
  lemma ExportAgreesAwayFromNoContent(s: State, response: Response)
    ensures !(response.Reply? && response.status == 204) ==>
              Export(s, response) == ExportAsWritten(s, response)
    ensures Export(s, response) == ExportAsWritten(s, response).(notice := Export(s, response).notice)
  {
  }

  /** The worked example: three holds on a line, and a reply routing the left hand through
      all three of them. */
  const ExampleHolds: seq<Hold> := [Hold(1, Point(0.0, 0.0, 0.0), DefaultColor, Jug),
                                    Hold(2, Point(1.0, 0.0, 0.0), DefaultColor, Jug),
                                    Hold(3, Point(2.0, 0.0, 0.0), DefaultColor, Jug)]
  const ExamplePaths: seq<LimbIds> := [LimbIds("left_hand", [1, 2, 3])]

  lemma ExampleConnections()
    ensures Connections(ExamplePaths) == [Connection(1, 2, Some("red")), Connection(2, 3, Some("red"))]
  {
    var red := Some("red");
    assert ColorOfKey("left_hand") == red;
    assert Pairs([1, 2, 3], red) == [Connection(1, 2, red), Connection(2, 3, red)];
    assert ExamplePaths[..0] == [];
  }

  lemma ExampleAnimatedPaths()
    ensures AnimatedPaths(ExampleHolds, ExamplePaths)
         == [AnimatedPath([Point(0.0, 0.0, 0.0), Point(1.0, 0.0, 0.0), Point(2.0, 0.0, 0.0)],
                          "left_hand", Some("red"))]
  {
    var holds := ExampleHolds;
    assert Find(holds, 1) == Some(holds[0]);
    assert Find(holds, 2) == Some(holds[1]);
    assert Find(holds, 3) == Some(holds[2]);
    assert [1, 2, 3][1..] == [2, 3] && [2, 3][1..] == [3] && [3][1..] == [];
    assert Resolve(holds, [3]) == [Point(2.0, 0.0, 0.0)];
    assert Resolve(holds, [2, 3]) == [Point(1.0, 0.0, 0.0), Point(2.0, 0.0, 0.0)];
    assert Resolve(holds, [1, 2, 3]) == [Point(0.0, 0.0, 0.0), Point(1.0, 0.0, 0.0), Point(2.0, 0.0, 0.0)];
    assert ColorOfKey("left_hand") == Some("red");
    assert ExamplePaths[1..] == [];
    assert AnimatedPaths(holds, []) == [];
  }

  /** Exporting the example store and receiving the example reply gives two red connections
      1-2 and 2-3 and one red three-point path through the holds in order. */
  lemma ThreeHoldExample(s: State)
    requires s.holds == ExampleHolds
    ensures var r := Export(s, Reply(200, Parsed(Some(ExamplePaths))));
            && r.connections == [Connection(1, 2, Some("red")), Connection(2, 3, Some("red"))]
            && r.animatedPaths == [AnimatedPath([Point(0.0, 0.0, 0.0), Point(1.0, 0.0, 0.0),
                                                 Point(2.0, 0.0, 0.0)], "left_hand", Some("red"))]
            && r.notice == Some(MsgPathsReceived)
  {
    ExampleConnections();
    ExampleAnimatedPaths();
    assert Export(s, Reply(200, Parsed(Some(ExamplePaths)))) == Install(s, ExamplePaths);
  }
}

=== FILE: space.dfy ===
/** Positions on the wall. Coordinates are only copied or compared, never combined. */
module Space {

  datatype Point = Point(x: real, y: real, z: real)
}

=== FILE: start_selection.dfy ===
/** find_top_hold and assign_start_positions (climbing2.py): the goal hold and the four
    starting holds. */
module StartSelection {
  import opened Wrappers
  import opened Space
  import opened Json
  import opened Limbs

  /** A parsed hold whose coordinates are numbers. */
  datatype WallHold = WallHold(id: int, pos: Point, kind: Json)

  /** The first index holding the largest y, as Python's `max` returns it: a later hold
      replaces the current best only when strictly higher. */
  function TopIndex(holds: seq<WallHold>): (r: nat)
    requires |holds| > 0
    ensures r < |holds|
    ensures forall j :: 0 <= j < |holds| ==> holds[j].pos.y <= holds[r].pos.y
    ensures forall j :: 0 <= j < r ==> holds[j].pos.y < holds[r].pos.y
    decreases |holds|
  {
    if |holds| == 1 then 0
    else
      var best := TopIndex(holds[..|holds| - 1]);
      if holds[|holds| - 1].pos.y > holds[best].pos.y then |holds| - 1 else best
  }

  /** The index of the top hold is determined by those two properties. */
  lemma TopIndexUnique(holds: seq<WallHold>, k: nat)
    requires k < |holds|
    requires forall j :: 0 <= j < |holds| ==> holds[j].pos.y <= holds[k].pos.y
    requires forall j :: 0 <= j < k ==> holds[j].pos.y < holds[k].pos.y
    ensures k == TopIndex(holds)
  {
  }

  /** find_top_hold: raises (None) on an empty list, otherwise the first highest hold. */
  function FindTopHold(holds: seq<WallHold>): (r: Option<WallHold>)
    ensures r.None? <==> |holds| == 0
    ensures r.Some? ==> r.value in holds && forall h :: h in holds ==> h.pos.y <= r.value.pos.y
    ensures r.Some? ==> exists k :: 0 <= k < |holds| && holds[k] == r.value
                                    && forall j :: 0 <= j < k ==> holds[j].pos.y < r.value.pos.y
  {
    if |holds| == 0 then None else Some(holds[TopIndex(holds)])
  }

  /** The sort key `(y, x)` compared lexicographically. */
  predicate KeyBelow(a: Point, b: Point) {
    a.y < b.y || (a.y == b.y && a.x < b.x)
  }

  /** A hold together with its index in the input list. */
  datatype Entry = Entry(hold: WallHold, index: nat)

  /** The order a stable sort by `(y, x)` produces: by key, ties in input order. */
  predicate Before(a: Entry, b: Entry) {
    KeyBelow(a.hold.pos, b.hold.pos)
    || (!KeyBelow(b.hold.pos, a.hold.pos) && a.index < b.index)
  }

  lemma BeforeTransitive(a: Entry, b: Entry, c: Entry)
    requires Before(a, b) && Before(b, c)
    ensures Before(a, c)
  {
  }

  /** No later entry precedes an earlier one. */
  predicate Sorted(s: seq<Entry>) {
    forall i, j :: 0 <= i < j < |s| ==> !Before(s[j], s[i])
  }

  /** A sorted list stays sorted under a new head that no element precedes. */
  lemma SortedCons(x: Entry, s: seq<Entry>)
    requires Sorted(s)
    requires forall j :: 0 <= j < |s| ==> !Before(s[j], x)
    ensures Sorted([x] + s)
  {
    var r := [x] + s;
    forall i, j | 0 <= i < j < |r| ensures !Before(r[j], r[i]) {
      assert r[j] == s[j - 1];
      if i > 0 {
        assert r[i] == s[i - 1];
      }
    }
  }

  /** When `e` does not go before the head of a sorted list, nothing in the tail with `e`
      inserted goes before that head either. */
  lemma HeadStaysFirst(e: Entry, s: seq<Entry>, rest: seq<Entry>)
    requires |s| > 0 && Sorted(s) && !Before(e, s[0])
    requires multiset(rest) == multiset(s[1..]) + multiset{e}
    ensures forall j :: 0 <= j < |rest| ==> !Before(rest[j], s[0])
  {
    forall j | 0 <= j < |rest| ensures !Before(rest[j], s[0]) {
      assert rest[j] in multiset(rest);
      if rest[j] != e {
        assert rest[j] in multiset(s[1..]);
        var m :| 0 <= m < |s[1..]| && s[1..][m] == rest[j];
        assert s[m + 1] == rest[j];
      }
    }
  }

  function Insert(e: Entry, s: seq<Entry>): (r: seq<Entry>)
    requires Sorted(s)
    ensures multiset(r) == multiset(s) + multiset{e}
    ensures Sorted(r)
  {
    if |s| == 0 then [e]
    else if Before(e, s[0]) then
      assert forall j :: 0 <= j < |s| ==> !Before(s[j], e) by {
        forall j | 0 <= j < |s| ensures !Before(s[j], e) {
          if Before(s[j], e) {
            BeforeTransitive(s[j], e, s[0]);
          }
        }
      }
      SortedCons(e, s);
      [e] + s
    else
      assert Sorted(s[1..]);
      var rest := Insert(e, s[1..]);
      HeadStaysFirst(e, s, rest);
      SortedCons(s[0], rest);
      assert s == [s[0]] + s[1..];
      [s[0]] + rest
  }

  /** Insertion sort, taking the entries left to right as `sorted` walks its input. */
  function SortEntries(s: seq<Entry>): (r: seq<Entry>)
    ensures multiset(r) == multiset(s)
    ensures Sorted(r)
    decreases |s|
  {
    if |s| == 0 then []
    else
      var front := s[..|s| - 1];
      assert s == front + [s[|s| - 1]];
      Insert(s[|s| - 1], SortEntries(front))
  }

  function Entries(holds: seq<WallHold>): seq<Entry> {
    seq(|holds|, k requires 0 <= k < |holds| => Entry(holds[k], k))
  }

  /** `sorted(holds, key=lambda h: (y, x))`: a permutation of the input, non-decreasing in
      `(y, x)`, with holds of equal key left in input order. */
  function StableSort(holds: seq<WallHold>): (r: seq<Entry>)
    ensures |r| == |holds|
    ensures multiset(r) == multiset(Entries(holds))
    ensures forall k :: 0 <= k < |r| ==> r[k].index < |holds| && holds[r[k].index] == r[k].hold
    ensures forall i, j :: 0 <= i < j < |r| ==> !KeyBelow(r[j].hold.pos, r[i].hold.pos)
    ensures forall i, j ::
              (0 <= i < j < |r| && r[i].hold.pos.y == r[j].hold.pos.y && r[i].hold.pos.x == r[j].hold.pos.x)
              ==> r[i].index <= r[j].index
  {
    var r := SortEntries(Entries(holds));
    assert |r| == |holds| by {
      assert |multiset(r)| == |multiset(Entries(holds))|;
    }
    forall k | 0 <= k < |r|
      ensures r[k].index < |holds| && holds[r[k].index] == r[k].hold
    {
      assert r[k] in multiset(Entries(holds));
    }
    r
  }

  /** assign_start_positions: raises (None) with fewer than four holds; otherwise the feet
      take the first two and the hands the next two positions of the stable sort. */
  function AssignStartPositions(holds: seq<WallHold>): (r: Option<PerLimb<Point>>)
    ensures r.None? <==> |holds| < 4
    ensures r.Some? ==>
              var sorted := StableSort(holds);
              && r.value == PerLimb(sorted[2].hold.pos, sorted[3].hold.pos,
                                    sorted[0].hold.pos, sorted[1].hold.pos)
    ensures r.Some? ==> forall l: Limb :: exists k :: 0 <= k < |holds| && holds[k].pos == r.value.Get(l)
    ensures r.Some? ==>
              && !KeyBelow(r.value.rightFoot, r.value.leftFoot)
              && !KeyBelow(r.value.leftHand, r.value.rightFoot)
              && !KeyBelow(r.value.rightHand, r.value.leftHand)
    ensures r.Some? ==> forall h :: h in holds ==> !KeyBelow(h.pos, r.value.leftFoot)
  {
    var sorted := StableSort(holds);
    if |sorted| < 4 then None
    else
      var r := PerLimb(sorted[2].hold.pos, sorted[3].hold.pos, sorted[0].hold.pos, sorted[1].hold.pos);
      LeastFirst(holds, sorted);
      Some(r)
  }

  /** The first entry of the stable sort is at least as low as every hold. */
  lemma LeastFirst(holds: seq<WallHold>, sorted: seq<Entry>)
    requires sorted == StableSort(holds) && |sorted| > 0
    ensures forall h :: h in holds ==> !KeyBelow(h.pos, sorted[0].hold.pos)
  {
    forall h | h in holds
      ensures !KeyBelow(h.pos, sorted[0].hold.pos)
    {
      var k :| 0 <= k < |holds| && holds[k] == h;
      var e := Entries(holds)[k];
      assert e in multiset(Entries(holds));
      assert e in multiset(sorted);
      var m :| 0 <= m < |sorted| && sorted[m] == e;
      if m > 0 {
        assert !KeyBelow(sorted[m].hold.pos, sorted[0].hold.pos);
      }
    }
  }
}

=== FILE: transport.dfy ===
/** The play/pause and step buttons of the animation controls (App.tsx, AnimationControls). */
module Transport {

  /** The two shared transport flags read by every animated marker. */
  datatype Flags = Flags(isPlaying: bool, stepForward: bool)

  /** How a marker's frame callback reads the flags: stepping is tested before playing. */
  datatype Mode = Stepping | Playing | Paused

  const Stopped: Flags := Flags(false, false)

  function ModeOf(f: Flags): Mode {
    if f.stepForward then Stepping else if f.isPlaying then Playing else Paused
  }

  /** At most one transport mode is active. */
  predicate Exclusive(f: Flags) {
    !(f.isPlaying && f.stepForward)
  }

  /** The play/pause button: flips playing and always cancels stepping. */
  function PlayPause(f: Flags): (r: Flags)
    ensures r.isPlaying != f.isPlaying && !r.stepForward
    ensures Exclusive(r)
    ensures ModeOf(r) == (if f.isPlaying then Paused else Playing)
  {
    Flags(!f.isPlaying, false)
  }

  /** The step button: stops playing and switches stepping on. */
  function StepForward(f: Flags): (r: Flags)
    ensures !r.isPlaying && r.stepForward
    ensures Exclusive(r)
    ensures ModeOf(r) == Stepping
  {
    Flags(false, true)
  }

  datatype Control = PressPlayPause | PressStep

  function Press(f: Flags, c: Control): Flags {
    match c
    case PressPlayPause => PlayPause(f)
    case PressStep => StepForward(f)
  }

  function PressAll(f: Flags, cs: seq<Control>): Flags
    decreases |cs|
  {
    if |cs| == 0 then f else PressAll(Press(f, cs[0]), cs[1..])
  }

  /** Whatever the flags were, after at least one button press the two modes are exclusive,
      and the mode is decided by the last button pressed. */
  lemma {:induction false} PressesLeaveOneMode(f: Flags, cs: seq<Control>)
    requires |cs| > 0
    ensures Exclusive(PressAll(f, cs))
    ensures cs[|cs| - 1] == PressStep ==> ModeOf(PressAll(f, cs)) == Stepping
    ensures cs[|cs| - 1] == PressPlayPause ==> ModeOf(PressAll(f, cs)) != Stepping
    decreases |cs|
  {
    if |cs| > 1 {
      PressesLeaveOneMode(Press(f, cs[0]), cs[1..]);
    }
  }

  /** Pressing play/pause twice from a non-stepping state restores the flags. */
  lemma PlayPauseTwice(f: Flags)
    requires !f.stepForward
    ensures PlayPause(PlayPause(f)) == f
  {
  }
}

=== FILE: wire.dfy ===
/** The request the editor sends (`JSON.stringify({ holds })` in exportHolds) and what the
    service makes of it. */
module Wire {
  import opened Wrappers
  import opened Space
  import opened Limbs
  import opened Json
  import HoldStore
  import opened HoldParsing
  import opened StartSelection
  import opened Climbing
  import opened Endpoint

  function TypeName(t: HoldStore.HoldType): string {
    match t
    case Jug => "Jug"
    case Crimp => "Crimp"
    case Nub => "Nub"
  }

  function PointJson(p: Point): Json {
    JArr([JNum(p.x), JNum(p.y), JNum(p.z)])
  }

  /** One serialized hold: all four fields of the editor's record. */
  function HoldJson(h: HoldStore.Hold): Json {
    JObj(map["id" := JNum(h.id as real), "position" := PointJson(h.position),
             "color" := JStr(h.color), "type" := JStr(TypeName(h.kind))])
  }

  function HoldsJson(holds: seq<HoldStore.Hold>): seq<Json> {
    seq(|holds|, k requires 0 <= k < |holds| => HoldJson(holds[k]))
  }

  /** The request body `{ "holds": [...] }`. */
  function Payload(holds: seq<HoldStore.Hold>): Json {
    JObj(map["holds" := JArr(HoldsJson(holds))])
  }

  /** The service reads the editor's request back as the same holds, in the same order,
      with the id, the three coordinates and the type name, and without the colour. */
  lemma ParsePayload(holds: seq<HoldStore.Hold>)
    ensures var r := ParseHolds(Payload(holds));
            && r.Ok? && |r.value| == |holds|
            && forall k :: 0 <= k < |holds| ==>
                 r.value[k] == ParsedHold(holds[k].id, PointJson(holds[k].position).items,
                                          JStr(TypeName(holds[k].kind)))
  {
    var items := HoldsJson(holds);
    forall k | 0 <= k < |items|
      ensures Acceptable(items[k])
      ensures ParseHold(items[k]).value
              == ParsedHold(holds[k].id, PointJson(holds[k].position).items, JStr(TypeName(holds[k].kind)))
    {
      TruncateWhole(holds[k].id);
    }
  }

  /** The holds as the search sees them: the editor's ids, positions and type names. */
  function WallOf(holds: seq<HoldStore.Hold>): seq<WallHold> {
    seq(|holds|, k requires 0 <= k < |holds| =>
                   WallHold(holds[k].id, holds[k].position, JStr(TypeName(holds[k].kind))))
  }

  /** The request is always truthy JSON and its coordinates are numbers, so it is never
      answered 400 and the search sees the editor's holds with their own ids and positions. */
  lemma PayloadReachesSearch(holds: seq<HoldStore.Hold>)
    ensures Truthy(Payload(holds))
    ensures ParseHolds(Payload(holds)).Ok?
    ensures ToWall(ParseHolds(Payload(holds)).value) == Some(WallOf(holds))
  {
    var m := map["holds" := JArr(HoldsJson(holds))];
    assert "holds" in m;
    assert |m| > 0;
    ParsePayload(holds);
    var parsed := ParseHolds(Payload(holds)).value;
    var w := ToWall(parsed);
    assert w.Some?;
    assert w.value == WallOf(holds);
  }

  /** End to end: a non-empty export of fewer than four holds is answered 500, which the
      editor reports as "Export failed!"; four or more get the search's answer, 200 or 204. */
  lemma ExportStatus(holds: seq<HoldStore.Hold>, search: SearchOutcome)
    requires |holds| > 0
    ensures var r := ReceiveJson(Some(Payload(holds)), search);
            && (|holds| < 4 ==> r.status == 500)
            && (|holds| >= 4 && search.SearchRaised? ==> r.status == 500)
            && (|holds| >= 4 && search.Finished? ==> r.status == (if search.success then 200 else 204))
  {
    PayloadReachesSearch(holds);
  }

  /** With four or more holds the answer carries the paths climbing_algorithm built. */
  lemma AnswerCarriesAlgorithmPaths(holds: seq<HoldStore.Hold>, search: SearchOutcome)
    requires |holds| >= 4 && search.Finished? && search.success
    ensures var wall := WallOf(holds);
            && FindTopHold(wall).Some?
            && ClimbingAlgorithm(wall, FindTopHold(wall).value.id, search).Ok?
            && ReceiveJson(Some(Payload(holds)), search)
               == HttpReply(200, PathsBody(ClimbingAlgorithm(wall, FindTopHold(wall).value.id, search).value.paths))
  {
    PayloadReachesSearch(holds);
    var wall := WallOf(holds);
    var parsed := ParseHolds(Payload(holds)).value;
    assert ParseHolds(Payload(holds)) == Ok(parsed);
    assert ToWall(parsed) == Some(wall);
    TopHoldIsKnown(wall);
    var top := FindTopHold(wall).value;
    assert FindTopHold(wall) == Some(top);
    var result := ClimbingAlgorithm(wall, top.id, search);
    assert result.Ok? && result.value.success;
    assert Handle(Some(Payload(holds)), search) == Computed(true, result.value.paths);
  }

  /** Every path in a 200 answer starts at the id of one of the editor's holds. */
  lemma PathsStartAtEditorHolds(holds: seq<HoldStore.Hold>, search: SearchOutcome)
    requires |holds| >= 4 && search.Finished? && search.success
    ensures var r := ReceiveJson(Some(Payload(holds)), search);
            && r.body.PathsBody?
            && forall l: Limb :: |r.body.paths.Get(l)| > 0
                 && exists k :: 0 <= k < |holds| && holds[k].id == r.body.paths.Get(l)[0]
  {
    AnswerCarriesAlgorithmPaths(holds, search);
    var wall := WallOf(holds);
    TopHoldIsKnown(wall);
    PathsStartAtStartHolds(wall, FindTopHold(wall).value.id, search);
  }
}

=== FILE: wrappers.dfy ===
/** Failure-carrying values shared by every module of the model. */
module Wrappers {

  /** A value that may be absent: JavaScript's `undefined`/`null`, Python's `None`. */
  datatype Option<+T> = None | Some(value: T)

  /** The outcome of an operation that either yields a value or raises an error. */
  datatype Result<+T, +E> = Ok(value: T) | Err(error: E)
}
